=== FILE: README.md ===
# Portfolio site: service-worker cache and UI rules, in Dafny

This project models the client-side bundle of a personal portfolio site. It has two parts.

**The service worker (`sw.js`).** The worker keeps a single cache, named `portfolio-cache-` followed by its version (`1.0.0`).
- **Install.** It hands three third-party URLs to `cache.addAll` unchanged, which stores all of them or none. It then fetches each page asset (`/`, `/index.html`, `/styles.css`, `/script.js`) with a `?v=<version>` query and stores each ok response under the asset's plain URL. Every page asset succeeds or fails on its own.
- **Activate.** It deletes every cache whose name has the `portfolio-cache-` prefix, except the current cache.
- **Fetch.** A request whose URL contains `.css` anywhere is handled network-first. Every other request is handled cache-first.

The model has these pieces:
- The Cache API is a map from a GET request's URL to a response record.
- `caches` is a list of cache names in creation order, plus a map from name to cache.
- One network attempt is `Success(response) | Failure`. At install, the network is a function from URL to outcome.
- Each strategy is a pure function of the cache and the network outcome. It returns three things: what the handler responds with, the cache afterwards, and the requests it sent to the network. Because of the third, "no network attempt" can be stated.

**The UI script's pure rules (`script.js`):**
- the project carousel: which card and dot `showProject` activates, next/previous wrap-around with JavaScript's truncating `%` and its `NaN` for zero cards, and the details-panel toggles;
- the events table's `data-label` assignment;
- the stylesheet cache-busting rewrite in `reloadCSS`;
- the mobile menu's open/close state machine.

Modules, one per file: `Strings` (JavaScript `includes`, `startsWith`, `split('?')[0]`, number-to-text), `JsNumbers` (JavaScript `%` and `NaN`), `Http`, `CacheStorage`, `WorkerConfig`, `Install`, `Activate`, `FetchHandler`, `Worker` (install, then activate, then fetch), `Carousel`, `EventsTable`, `CssReload`, `MobileMenu`.

## Model

| member | source | states |
|---|---|---|
| WorkerConfig.CacheName | sw.js:2-3 | The cache name is the prefix `portfolio-cache-` followed by the version, and nothing else. |
| WorkerConfig.CacheNameInjective | sw.js:2-3 | Two versions give the same cache name exactly when they are the same version. So changing the version string is the only way to get a new cache. |
| WorkerConfig.BustedUrlDiffers | sw.js:32-36 | The URL an asset is fetched from (`url?v=version`) never equals the key it is stored under. |
| Activate.Sweep | sw.js:50-58 | Deletes exactly the listed names that start with the prefix and differ from the current name. Every other cache survives with its contents. The name listing stays duplicate-free and matches the open caches. |
| Activate.ActivateWorker | sw.js:48-58 | With the shipped version, the worker's own cache is never deleted. |
| Activate.SweepKeepsCurrentAndForeign | sw.js:52-54 | The current cache, and every cache whose name lacks the prefix, survives unchanged and is not in the deleted list. |
| Activate.SweepEvictsPreviousVersion | sw.js:50-58 | After a version bump, the previous version's cache is deleted. |
| Activate.SweepFixesClean | sw.js:50-58 | A storage with no prefixed name other than the current one is a fixed point of the sweep: nothing is deleted and nothing changes. |
| Activate.SweepIdempotent | sw.js:50-58 | A second sweep deletes nothing and leaves the storage exactly as the first left it. |
| CacheStorage.Filter | sw.js:52-54 | `filter` keeps exactly the names that pass, keeps no duplicates, and never grows the list. |
| CacheStorage.Update | sw.js:26 | `caches.open` creates the named cache, empty, if it is absent and appends its name to the end of the listing. The cache then holds the writes applied to what it held before. The listing stays valid, and other caches are unchanged. |
| Install.PutAssets | sw.js:31-42 | An asset whose cache-busted fetch resolves ok is stored under its plain URL with that response. An asset whose fetch fails or is not ok leaves its entry as it was. Keys of other assets are untouched. So one failing asset never stops another from being stored. |
| Install.InstallAssets | sw.js:25-42 | Opens the version's cache. Requests the third-party URLs as they are, then asset `i` from `url + "?v=" + version`. Stores each ok asset response under the bare URL. When `addAll` succeeds, each third-party URL that is not an asset key holds its response. Every other key, including the key of an asset whose fetch failed, keeps what it held before, and every other cache is unchanged. |
| Install.InstallStoresThirdParty | sw.js:28-42 | When `addAll` succeeds and no third-party URL is an asset key, every third-party response is in the cache after install. |
| Install.AddAllSucceeds | sw.js:28 | Names the condition under which `cache.addAll` resolves: no repeated URL and every fetch ok. |
| Install.InstallStoresUnderBareUrl | sw.js:31-39 | After install, an ok asset's entry is its fetched response. A failed asset whose key is not a third-party URL keeps exactly the entry it had before: present with the same response, or absent. |
| Install.InstallCacheIdempotent | sw.js:26-42 | Installing twice against the same network leaves the same cache as installing once: `addAll` and the versioned puts write the same responses under the same keys again. |
| Install.PutAssetsIdempotent | sw.js:31-42 | Repeating the versioned puts against the same network changes nothing. |
| Install.FetchUrls | sw.js:31-36 | One fetch URL per asset, in list order. Cutting a fetch URL at its `?` gives exactly the key the asset is stored under, when neither the origin nor the path has a `?`. |
| Install.FetchKeyIsBareUrl | sw.js:32-36 | For one asset: the fetched URL, cut at its first `?`, is the stored key. |
| Install.WorkerFetchUrls | sw.js:13-18 | For the shipped version and asset list, the four fetch URLs are `/?v=1.0.0`, `/index.html?v=1.0.0`, `/styles.css?v=1.0.0` and `/script.js?v=1.0.0`, each resolved against the origin. |
| Install.WorkerInstallFetches | sw.js:6-32 | The shipped worker's install requests the three third-party URLs as they are, then exactly `/?v=1.0.0`, `/index.html?v=1.0.0`, `/styles.css?v=1.0.0` and `/script.js?v=1.0.0`, in that order. |
| Install.ImmutableNotVersioned | sw.js:6-18 | Whatever the origin, no third-party URL equals the key of a versioned asset, so the versioned puts never overwrite an `addAll` entry. |
| Install.AddAll | sw.js:28 | `cache.addAll` stores every listed response when all fetches resolve ok and no URL repeats. Otherwise it stores nothing. It never touches other keys. |
| Install.InstallWorker | sw.js:21-45 | The shipped install, with the shipped version and both asset lists, leaves the listing valid and the worker's cache open. |
| Worker.ThirdPartyInstalled | sw.js:26-42 | When `addAll` succeeds, the shipped worker's cache holds every third-party response once install is done. |
| Worker.ThirdPartyPrecached | sw.js:26-58 | When `addAll` succeeds, every third-party response is still in the active cache after activate. |
| FetchHandler.Route | sw.js:69 | A request goes network-first exactly when `.css` occurs somewhere in its URL. |
| FetchHandler.RouteExamples | sw.js:69 | `.css` in a query string or before `.map` also routes network-first. It is not a suffix test. |
| FetchHandler.NetworkFirstStep | sw.js:69-83 | Always makes one network attempt. Online, it returns the network response and the cache then maps the URL to it, with no status check. Offline, it leaves the cache alone and returns the cached response exactly when a GET entry exists, otherwise `undefined`. |
| FetchHandler.CacheFirstStep | sw.js:86-112 | A hit returns the cached response and sends nothing to the network. A miss sends one request: a rejection propagates; a response is returned unchanged and stored only if its status is 200 and its type is `basic`. |
| FetchHandler.HandleFetch | sw.js:67-113 | Nothing is ever removed, and no other URL's entry changes. Anything newly written under the request's URL is exactly the response returned. The cache changes only for a GET whose fetch resolved. At most one request, the original one, goes to the network. |
| FetchHandler.CssOnlineIsFresh | sw.js:69-77 | While the network answers, a stylesheet request gets the network's response and the cache is refreshed with it. |
| FetchHandler.NetworkFirstStoresAnyStatus | sw.js:71-77 | Network-first caches any response, including a 404. |
| FetchHandler.CacheFirstRejectsUnstorable | sw.js:96-99 | Cache-first never stores a response that is not a 200 `basic` one. |
| FetchHandler.NetworkFirstOfflineReplaysLast | sw.js:71-81 | Offline, after an online network-first call, the same GET returns the response that call returned. |
| FetchHandler.CacheFirstSecondCallHits | sw.js:88-110 | After a miss whose response was stored, the next identical request returns the same response with no network attempt, whatever the network would do. |
| FetchHandler.CacheFirstHitIgnoresNetwork | sw.js:88-92 | On a hit, the result does not depend on the network outcome, and nothing is fetched. |
| CacheStorage.Match | sw.js:80 | `cache.match` finds an entry exactly for a GET request whose URL is stored, and what it finds is the stored response. |
| CacheStorage.Put | sw.js:75 | `cache.put` of a GET maps the request URL to the response and leaves every other entry as it was. A non-GET request leaves the cache unchanged. |
| CacheStorage.MatchAfterPut | sw.js:75 | After a GET is stored, matching that request gives the stored response. Lookups of other URLs are unchanged. |
| Worker.ActiveCache | sw.js:31-58 | After install then activate, the current cache holds every ok versioned asset under its plain URL. |
| Worker.PrecachedPageNeedsNoNetwork | sw.js:88-92 | A pre-cached non-stylesheet asset is served from the cache after install and activate, with no network attempt, online or offline. |
| Worker.PrecachedStylesheetOnlyOffline | sw.js:69-81 | The pre-cached `/styles.css` is served only when the network fails. Online, the network response is served. |
| Worker.StylesheetPrecached | sw.js:31-58 | An ok install fetch of `/styles.css` leaves its response in the active cache. |
| Worker.StylesheetUrlIsCss | sw.js:69 | The stylesheet's URL contains `.css` whatever the origin, so it always goes network-first. |
| FetchHandler.CachedCssOnlyOffline | sw.js:69-81 | For any cache holding a `.css` URL: offline, the cached response is served; online, the network response is. |
| Carousel.ShowProject | script.js:168-178 | Card `i` is displayed iff `i === index`, and every other card is set to `none`. Dot `i` is active iff `i === index`. The index becomes `index`. Details panels and expanded flags are unchanged. |
| Carousel.ShowProjectShows | script.js:168-178 | Showing `k` displays no card other than `k` and activates no dot other than `k`. Card `k` is displayed when it exists. When `k` is past the last card, as a dot click can make it when there are more dots than cards, no card is displayed. |
| Carousel.ShowProjectLastWins | script.js:168-178 | Showing `a` and then `b` gives the same carousel as showing `b` alone: each call overwrites every card's display and every dot. |
| Carousel.DotClick | script.js:192-195 | Clicking dot `i` sets the index to `i`, activates dot `i`, and shows card `i` only, or no card when `i` is past the last card. |
| Carousel.Next | script.js:186-189 | From an index in range, next moves to the following card, wrapping from the last to the first, and `showProject` then shows that card and that dot only. With no cards the index becomes `NaN`. |
| Carousel.Prev | script.js:181-184 | From an index in range, previous moves to the preceding card, wrapping from the first to the last, and `showProject` then shows that card and that dot only. With no cards the index becomes `NaN`. |
| Carousel.NextIndex | script.js:187 | `(i + 1) % n` in JavaScript is `NaN` for `n = 0`. For `i` in range it is `i + 1`, or 0 from the last index. |
| Carousel.PrevIndex | script.js:182 | `(i - 1 + n) % n` in JavaScript is `NaN` for `n = 0`. For `i` in range it is `i - 1`, or `n - 1` from index 0. |
| Carousel.NextLandsInRange | script.js:186-189 | For any non-negative index, next gives `(i + 1) % n`, which lies in `[0, n)`. |
| Carousel.PrevLandsInRange | script.js:181-184 | For any non-negative index, previous gives `(i - 1 + n) % n`, which lies in `[0, n)`. |
| Carousel.PrevAfterNext | script.js:181-189 | Previous after next restores the index and shows that card only. |
| Carousel.NextAfterPrev | script.js:181-189 | Next after previous restores the index and shows that card only. |
| Carousel.IndexStaysInRange | script.js:121-196 | With at least one card and no more dots than cards, every sequence of clicks keeps the index an integer in `[0, n)`. |
| Carousel.NoCardsGivesNaN | script.js:181-189 | With zero cards, both buttons set the index to `NaN`. |
| Carousel.TogglePreview | script.js:130-141 | A preview click flips whether the panel is open. Afterwards the `expanded` flag agrees with the panel. |
| Carousel.Expand | script.js:144-154 | The expand button opens the panel and sets `expanded`. |
| Carousel.Collapse | script.js:156-165 | The collapse button closes the panel and clears `expanded`. |
| Carousel.ToggleTwice | script.js:134-140 | When panel and flag agree, two preview clicks restore both the open state and the flag. They restore the card exactly once its display is set. |
| EventsTable.LabelFor | script.js:366-368 | Cell `index` gets `headers[index % headers.length]`. With no headers it gets the text "undefined". |
| EventsTable.AssignLabels | script.js:366-369 | One label per cell, in order, each the header its index selects. |
| EventsTable.RowColumnLabel | script.js:366-369 | In full rows, the cell at row `r` and column `c` is labelled with header `c`. |
| EventsTable.LabelsPeriodic | script.js:366-369 | Labels repeat with the header count as their period. |
| CssReload.Rewrite | script.js:70-76 | An href that does not contain the page origin is unchanged. One that does keeps its text before the first `?`. |
| CssReload.RewriteShape | script.js:73-74 | A rewritten href keeps the same text before its first `?`. It has exactly one `?`, and its query is exactly `v=` followed by the timestamp's digits. |
| CssReload.RewriteIdempotent | script.js:70-76 | Rewriting twice with the same timestamp equals rewriting once. |
| CssReload.RewriteRefreshes | script.js:70-76 | When the origin occurs before the query, a later reload replaces the earlier stamp, as if only the later reload had run. |
| CssReload.ReloadCss | script.js:66-77 | Across all stylesheet links: foreign links are unchanged. Local links keep their path, carry exactly one `?`, and their query is exactly `v=` followed by the timestamp's digits. |
| MobileMenu.Toggle | script.js:85-95 | The button flips both `active` classes. Scrolling is locked exactly when the nav ends up open. |
| MobileMenu.DocumentClick | script.js:98-106 | A click outside both elements closes an open menu: both classes are cleared and scrolling is restored. Any other click changes nothing. |
| MobileMenu.Step | script.js:84-107 | Each user action runs the listeners it reaches, in bubbling order. A button click toggles the menu, and the document listener does not undo it. A click inside the nav changes nothing. An outside click leaves the menu closed. A link click does what its own listener does. |
| MobileMenu.LinkFollowed | script.js:201-227 | Following an in-page link whose target element exists closes an open menu and restores scrolling. When `document.querySelector` finds no target, or throws on a bare `#`, the menu is left as it was. |
| MobileMenu.LinkClosesOnlyWithTarget | script.js:205-226 | An open menu closes on a link click exactly when the link's target exists. |
| MobileMenu.RunConsistent | script.js:84-107 | From a consistent state (both classes equal, scroll locked iff open), every sequence of clicks stays consistent. |
| MobileMenu.ToggleTwice | script.js:85-95 | Two button clicks restore a consistent menu. |
| MobileMenu.ToggleKeepsDisagreement | script.js:86-87 | The two classes are toggled independently, so classes that already disagree keep disagreeing. |
| JsNumbers.Rem | script.js:187 | JavaScript `%` is `NaN` for a zero divisor or a `NaN` operand. For a non-negative dividend and positive divisor it is the Euclidean remainder. For a negative dividend it is the negated remainder of the magnitudes, whatever the divisor's sign. |
| JsNumbers.TruncRem | script.js:182-187 | The truncated remainder is smaller in magnitude than the divisor and takes the dividend's sign. |
| JsNumbers.TruncRemCongruent | script.js:182-187 | The truncated remainder differs from the dividend by a multiple of the divisor. With the bound and sign this fixes its value. |
| JsNumbers.RemNonNegative | script.js:187 | On a non-negative dividend and a positive divisor, JavaScript's `%` agrees with Dafny's. |
| JsNumbers.RemNegative | script.js:182 | For every negative dividend and positive divisor, JavaScript's `%` is `-((-a) % b)`. It differs from Dafny's whenever the divisor does not divide the dividend. |
| JsNumbers.RemNegativeDividend | script.js:182 | For example, `-1 % 3` is `-1` in JavaScript and 2 in Dafny. This is why the previous button adds `n` before taking the remainder. |

## What the worker does not do

These are facts about `sw.js` as written, and the model keeps to them:
- There is one cache, `portfolio-cache-1.0.0`. There is no split into static, font or image caches.
- There is no offline fallback page and no placeholder image. An offline miss answers with `undefined` (network-first) or a network error (cache-first).
- There is no stale-while-revalidate strategy. The only strategies are network-first and cache-first.
- Every request is intercepted, whatever its method or scheme.
- Routing is one substring test for `.css` on the whole URL.
- Network-first caches any response it receives, including a 404 (`FetchHandler.NetworkFirstStoresAnyStatus`).
- Activate deletes caches by one prefix only, `portfolio-cache-`.

## Left out

- `self.skipWaiting()` and `clients.claim()`: these are host lifecycle calls with no effect on cache contents.
- Console logging, in both files.
- Concurrency. Several parts of the code run unawaited or in parallel:
  - the fire-and-forget cache writes in both fetch branches, modelled as finished when the step returns;
  - the parallel puts of `Promise.all` at install, modelled one after another (asset URLs are distinct, so order does not matter);
  - the unawaited `cache.addAll` of the third-party assets.
  Interleavings of these with later requests are not modelled.
- Install.InstallAssets: models the unawaited `cache.addAll` as completed before the versioned puts. Install can in fact finish while `addAll` is still running. The order does not matter for the shipped lists, whose keys never overlap (`Install.ImmutableNotVersioned`).
- `caches.match` searches every open cache, in creation order. The model looks only in the current cache. Activate keeps every cache whose name lacks the prefix, so a foreign cache created before the current one answers first for any URL it holds, even after activate. `Worker.PrecachedPageNeedsNoNetwork` and `Worker.PrecachedStylesheetOnlyOffline` hold only when no such cache holds the URL. Before activate runs, an older `portfolio-cache-` cache can also answer.
- A failing `cache.put` (quota exceeded, a 206 response, a `Vary: *` header) is not modelled. Matching options (`ignoreSearch`, `Vary`, URL fragments) are not modelled either. Requests and responses are reduced to method, URL, status, type and an opaque body. Response cloning is modelled by value semantics.
- Relative asset paths are resolved by plain concatenation with the worker's origin (`Install.Resolve`).
- `reloadCSS`:
  - the clock reading is a parameter;
  - `link.href` is taken as the already-resolved absolute URL;
  - `reloadCSS` is defined but not called anywhere in the script.
- MobileMenu.RunConsistent: covers the menu's own listeners only. The events modal also writes `document.body.style.overflow`, so opening the modal with the menu closed locks scrolling outside this invariant.
- EventsTable.AssignLabels: assumes the page has the events modal, its "what's new" label and its close button. When any of them is missing, the setup function returns early and no `data-label` is assigned at all. The model assigns labels unconditionally.
- Carousel: the previous and next listeners exist only when both buttons are present. The model offers them as events unconditionally.
- The rest of the events modal: open/close, touch/click de-duplication and keyboard handlers.
- Whether an in-page link's target element exists is a parameter of the link action (`FollowLink(targetFound)`). The `document.querySelector` lookup itself, and the error a bare `#` makes it throw, are not modelled beyond "no target".
- Other event-driven DOM wiring: smooth-scroll pixel arithmetic (except its menu-closing part, `MobileMenu.LinkFollowed`), the header scroll effect, IntersectionObserver animations, news-ticker cloning and its floating-point animation durations, and certification tooltips.
- The `DOM` helper object.
- `formatDate`, which depends on the locale.
- `fetchGitHubData`, which is network plus JSON.
- `sanitizeInput` and `sanitizeHTML`, which are a trim and the identity.

=== FILE: activate.dfy ===
/**
  The activate handler's eviction sweep: every cache whose name starts with
  the worker's prefix, other than the current cache, is deleted. Caches under
  any other name belong to someone else and are left alone.
 */
module Activate {
  import opened Strings
  import opened CacheStorage
  import opened WorkerConfig

  /** The filter the sweep applies to each name from `caches.keys()`. */
  predicate IsStale(name: string, current: string) {
    StartsWith(name, CacheNamePrefix) && name != current
  }

  datatype SweepResult = SweepResult(deleted: seq<string>, storage: Storage)

  /** `caches.keys()`, filtered, then `caches.delete` on each name kept. */
  function Sweep(st: Storage, current: string): (r: SweepResult)
    requires st.Valid()
    ensures r.storage.Valid()
    ensures forall n :: n in r.deleted <==> n in st.names && StartsWith(n, CacheNamePrefix) && n != current
    ensures Distinct(r.deleted)
    ensures forall n :: n in r.storage.caches <==> n in st.caches && (!StartsWith(n, CacheNamePrefix) || n == current)
    ensures forall n :: n in r.storage.caches ==> r.storage.caches[n] == st.caches[n]
  {
    var deleted := Filter(st.names, n => IsStale(n, current));
    var kept := Filter(st.names, n => !IsStale(n, current));
    var caches := map n | n in st.caches && !IsStale(n, current) :: st.caches[n];
    SweepResult(deleted, Storage(kept, caches))
  }

  /** The sweep for the shipped worker, with its own cache as the current one. */
  function ActivateWorker(st: Storage): (r: SweepResult)
    requires st.Valid()
    ensures CacheName(CacheVersion) in st.caches ==> CacheName(CacheVersion) in r.storage.caches
    ensures CacheName(CacheVersion) !in r.deleted
  {
    Sweep(st, CacheName(CacheVersion))
  }

  /** The current cache survives with its contents, and so does every cache
      whose name lacks the prefix. */
  lemma SweepKeepsCurrentAndForeign(st: Storage, version: string, n: string)
    requires st.Valid()
    requires n in st.caches
    requires n == CacheName(version) || !StartsWith(n, CacheNamePrefix)
    ensures n in Sweep(st, CacheName(version)).storage.caches
    ensures Sweep(st, CacheName(version)).storage.caches[n] == st.caches[n]
    ensures n !in Sweep(st, CacheName(version)).deleted
  {
  }

  /** After a version bump, the previous version's cache is deleted. */
  lemma {:induction false} SweepEvictsPreviousVersion(st: Storage, oldVersion: string, newVersion: string)
    requires st.Valid()
    requires oldVersion != newVersion
    requires CacheName(oldVersion) in st.caches
    ensures CacheName(oldVersion) in Sweep(st, CacheName(newVersion)).deleted
    ensures CacheName(oldVersion) !in Sweep(st, CacheName(newVersion)).storage.caches
  {
    CacheNameInjective(oldVersion, newVersion);
  }

  /** Running the sweep a second time deletes nothing and changes nothing. */
  lemma {:induction false} SweepIdempotent(st: Storage, current: string)
    requires st.Valid()
    ensures Sweep(Sweep(st, current).storage, current).deleted == []
    ensures Sweep(Sweep(st, current).storage, current).storage == Sweep(st, current).storage
  {
    SweepFixesClean(Sweep(st, current).storage, current);
  }

  /** A storage holding no stale name is left exactly as it is by the sweep. */
  lemma {:induction false} SweepFixesClean(st: Storage, current: string)
    requires st.Valid()
    requires forall n :: n in st.names ==> !IsStale(n, current)
    ensures Sweep(st, current) == SweepResult([], st)
  {
    NoStaleFilter(st.names, current);
    KeepAllFilter(st.names, n => !IsStale(n, current));
    var caches := map n | n in st.caches && !IsStale(n, current) :: st.caches[n];
    assert caches == st.caches;
  }

  /** A list with no stale name yields no name to delete. */
  lemma {:induction false} NoStaleFilter(names: seq<string>, current: string)
    requires forall n :: n in names ==> !IsStale(n, current)
    ensures Filter(names, n => IsStale(n, current)) == []
  {
    if |names| > 0 {
      assert names[0] in names;
      assert forall n :: n in names[1..] ==> n in names;
      NoStaleFilter(names[1..], current);
    }
  }

  /** Filtering a list whose every element passes returns the list itself. */
  lemma {:induction false} KeepAllFilter(names: seq<string>, keep: string -> bool)
    requires forall n :: n in names ==> keep(n)
    ensures Filter(names, keep) == names
  {
    if |names| > 0 {
      assert names[0] in names;
      assert forall n :: n in names[1..] ==> n in names;
      KeepAllFilter(names[1..], keep);
      assert names == [names[0]] + names[1..];
    }
  }
}

=== FILE: cache_storage.dfy ===
/**
  The Cache API as the worker uses it. A `Cache` maps the URL of a GET
  request to the response stored for it; `CacheStorage` (the global `caches`)
  holds named caches and lists their names in creation order.
 */
module CacheStorage {
  import opened Http

  type Cache = map<string, Response>

  /** What `cache.match(...)` resolves to: a response or `undefined`. */
  datatype Lookup = Found(resp: Response) | NotFound

  /** `cache.match(request)`: without `ignoreMethod`, only a GET request can match. */
  function Match(c: Cache, req: Request): (r: Lookup)
    ensures r.Found? <==> req.verb == GET && req.url in c
    ensures r.Found? ==> r.resp == c[req.url]
  {
    if req.verb == GET && req.url in c then Found(c[req.url]) else NotFound
  }

  /** `cache.put(request, response)`. A non-GET request makes the call reject
      and nothing is stored; the worker never awaits these writes, so the
      rejection is not observed. */
  function Put(c: Cache, req: Request, resp: Response): (r: Cache)
    ensures r.Keys == if req.verb == GET then c.Keys + {req.url} else c.Keys
    ensures req.verb == GET ==> r[req.url] == resp
    ensures forall k :: k in c && k != req.url ==> r[k] == c[k]
    ensures req.verb != GET ==> r == c
  {
    if req.verb == GET then c[req.url := resp] else c
  }

  /** `a` and `b` agree at key `k`: both lack it, or both hold the same response. */
  predicate SameEntry(a: Cache, b: Cache, k: string) {
    (k in a <==> k in b) && (k in a ==> a[k] == b[k])
  }

  /** A stored response is what a later match of the same request returns, and
      no other request's lookup changes. */
  lemma MatchAfterPut(c: Cache, req: Request, resp: Response, other: Request)
    requires req.verb == GET
    ensures Match(Put(c, req, resp), req) == Found(resp)
    ensures other.url != req.url ==> Match(Put(c, req, resp), other) == Match(c, other)
  {
  }

  /** No name listed twice. */
  predicate Distinct(s: seq<string>) {
    forall i, j :: 0 <= i < j < |s| ==> s[i] != s[j]
  }

  datatype Storage = Storage(names: seq<string>, caches: map<string, Cache>) {
    /** `caches.keys()` lists exactly the open caches, each once. */
    predicate Valid() {
      && Distinct(names)
      && (forall n :: n in names ==> n in caches)
      && (forall n :: n in caches ==> n in names)
    }
  }

  /** `caches.open(name)` followed by writes: the cache called `name` is created
      empty when absent (its name appended to the listing) and then replaced by
      `update` applied to its contents. */
  function Update(st: Storage, name: string, update: Cache -> Cache): (r: Storage)
    requires st.Valid()
    ensures r.Valid()
    ensures name in r.caches
    ensures r.caches.Keys == st.caches.Keys + {name}
    ensures forall n :: n in st.caches && n != name ==> r.caches[n] == st.caches[n]
    ensures name in st.caches ==> r.names == st.names
    ensures name !in st.caches ==> r.names == st.names + [name]
    ensures r.caches[name] == update(if name in st.caches then st.caches[name] else map[])
  {
    var before := if name in st.caches then st.caches[name] else map[];
    var names := if name in st.caches then st.names else st.names + [name];
    assert Distinct(names);
    Storage(names, st.caches[name := update(before)])
  }

  /** The names of `names` that satisfy `keep`, in their original order
      (`Array.prototype.filter`). */
  function Filter(names: seq<string>, keep: string -> bool): (r: seq<string>)
    ensures forall n :: n in r <==> n in names && keep(n)
    ensures Distinct(names) ==> Distinct(r)
    ensures |r| <= |names|
  {
    if |names| == 0 then []
    else if keep(names[0]) then [names[0]] + Filter(names[1..], keep)
    else Filter(names[1..], keep)
  }
}

=== FILE: carousel.dfy ===
/**
  The project carousel. The page holds a list of project cards and a list of
  dots; the carousel keeps a current index. `showProject(k)` displays card
  `k` only and activates dot `k` only; the next and previous buttons move the
  index with wrap-around using JavaScript's `%`; a dot click shows its own
  index. Each card also has a details panel opened and closed by clicking
  its preview or its expand and collapse buttons.
 */
module Carousel {
  import opened JsNumbers

  /** A `style.display` value: unset (''), 'block' or 'none'. */
  datatype Display = Unset | Block | Hidden

  datatype Card = Card(display: Display, details: Display, expanded: bool)

  datatype Carousel = Carousel(cards: seq<Card>, dots: seq<bool>, current: Num)

  /** `showProject(index)`: card `i` gets 'block' exactly when `i === index`,
      dot `i` is active exactly when `i === index`; details panels are untouched. */
  function ShowProject(s: Carousel, index: Num): (r: Carousel)
    ensures |r.cards| == |s.cards| && |r.dots| == |s.dots|
    ensures r.current == index
    ensures forall i :: 0 <= i < |r.cards| ==>
      (r.cards[i].display == Block <==> index == Int(i)) &&
      (r.cards[i].display != Block ==> r.cards[i].display == Hidden)
    ensures forall i :: 0 <= i < |r.dots| ==> (r.dots[i] <==> index == Int(i))
    ensures forall i :: 0 <= i < |r.cards| ==>
      r.cards[i].details == s.cards[i].details && r.cards[i].expanded == s.cards[i].expanded
  {
    var cards := seq(|s.cards|, i requires 0 <= i < |s.cards| =>
      s.cards[i].(display := if Int(i) == index then Block else Hidden));
    var dots := seq(|s.dots|, i requires 0 <= i < |s.dots| => Int(i) == index);
    Carousel(cards, dots, index)
  }

  /** `(i + 1) % n` in JavaScript: `NaN` for no cards, and from an index in
      range the following one, wrapping from the last to the first. */
  lemma NextIndex(cur: Num, n: nat)
    ensures n == 0 ==> Rem(Add(cur, Int(1)), Int(n)) == NaN
    ensures cur.Int? && 0 <= cur.v < n ==>
      Rem(Add(cur, Int(1)), Int(n)) == Int(if cur.v + 1 < n then cur.v + 1 else 0)
  {
    if cur.Int? && 0 <= cur.v < n {
      if cur.v + 1 < n { ModBelow(cur.v + 1, n); } else { ModOnce(cur.v + 1, n); }
    }
  }

  /** `(i - 1 + n) % n` in JavaScript: `NaN` for no cards, and from an index
      in range the preceding one, wrapping from the first to the last. */
  lemma PrevIndex(cur: Num, n: nat)
    ensures n == 0 ==> Rem(Add(Sub(cur, Int(1)), Int(n)), Int(n)) == NaN
    ensures cur.Int? && 0 <= cur.v < n ==>
      Rem(Add(Sub(cur, Int(1)), Int(n)), Int(n)) == Int(if cur.v == 0 then n - 1 else cur.v - 1)
  {
    if cur.Int? && 0 <= cur.v < n {
      if cur.v == 0 { ModBelow(n - 1, n); } else { ModOnce(cur.v - 1 + n, n); }
    }
  }

  /** The next button: `currentIndex = (currentIndex + 1) % projectCards.length`,
      then `showProject(currentIndex)`. From an index in range it shows the
      following card, wrapping from the last to the first. */
  function Next(s: Carousel): (r: Carousel)
    ensures |s.cards| == 0 ==> r.current == NaN
    ensures s.current.Int? && 0 <= s.current.v < |s.cards| ==>
      r.current == Int(if s.current.v + 1 < |s.cards| then s.current.v + 1 else 0)
    ensures s.current.Int? && 0 <= s.current.v < |s.cards| ==> Shows(r, r.current.v)
  {
    NextIndex(s.current, |s.cards|);
    ShowProject(s, Rem(Add(s.current, Int(1)), Int(|s.cards|)))
  }

  /** The previous button: `currentIndex = (currentIndex - 1 + projectCards.length) % projectCards.length`,
      then `showProject(currentIndex)`. From an index in range it shows the
      preceding card, wrapping from the first to the last. */
  function Prev(s: Carousel): (r: Carousel)
    ensures |s.cards| == 0 ==> r.current == NaN
    ensures s.current.Int? && 0 <= s.current.v < |s.cards| ==>
      r.current == Int(if s.current.v == 0 then |s.cards| - 1 else s.current.v - 1)
    ensures s.current.Int? && 0 <= s.current.v < |s.cards| ==> Shows(r, r.current.v)
  {
    PrevIndex(s.current, |s.cards|);
    ShowProject(s, Rem(Add(Sub(s.current, Int(1)), Int(|s.cards|)), Int(|s.cards|)))
  }

  /** For any non-negative index, even one past the last card (reachable by a
      dot click when there are more dots than cards), next lands in range. */
  lemma NextLandsInRange(s: Carousel)
    requires |s.cards| > 0 && s.current.Int? && s.current.v >= 0
    ensures Next(s).current == Int((s.current.v + 1) % |s.cards|)
    ensures 0 <= Next(s).current.v < |s.cards|
  {
    RemNonNegative(s.current.v + 1, |s.cards|);
  }

  /** Likewise for previous. */
  lemma PrevLandsInRange(s: Carousel)
    requires |s.cards| > 0 && s.current.Int? && s.current.v >= 0
    ensures Prev(s).current == Int((s.current.v - 1 + |s.cards|) % |s.cards|)
    ensures 0 <= Prev(s).current.v < |s.cards|
  {
    RemNonNegative(s.current.v - 1 + |s.cards|, |s.cards|);
  }

  /** Clicking dot `i`: `currentIndex = index`, then `showProject(index)`.
      The index may lie past the last card when there are more dots than cards. */
  function DotClick(s: Carousel, i: nat): (r: Carousel)
    requires i < |s.dots|
    ensures r.current == Int(i)
    ensures Shows(r, i)
    ensures |r.dots| == |s.dots| && r.dots[i]
  {
    ShowProject(s, Int(i))
  }

  /** The carousel shows index `k`: the index is `k`, no card other than
      card `k` is displayed and no dot other than dot `k` is active. When `k`
      is past the last card (or dot), no card (or dot) is active at all. */
  predicate Shows(s: Carousel, k: nat) {
    && s.current == Int(k)
    && (forall i :: 0 <= i < |s.cards| ==> (s.cards[i].display == Block <==> i == k))
    && (forall i :: 0 <= i < |s.dots| ==> (s.dots[i] <==> i == k))
  }

  /** Previous undoes next: from index `i` in range, next then previous comes
      back to `i` and shows card `i`. */
  lemma {:induction false} PrevAfterNext(s: Carousel, i: nat)
    requires i < |s.cards| && s.current == Int(i)
    ensures Prev(Next(s)).current == Int(i)
    ensures Shows(Prev(Next(s)), i)
  {
    var t := Next(s);
    assert |t.cards| == |s.cards|;
    assert Prev(t) == ShowProject(t, Int(i));
    ShowProjectShows(t, i);
  }

  /** Next undoes previous. */
  lemma {:induction false} NextAfterPrev(s: Carousel, i: nat)
    requires i < |s.cards| && s.current == Int(i)
    ensures Next(Prev(s)).current == Int(i)
    ensures Shows(Next(Prev(s)), i)
  {
    var t := Prev(s);
    assert |t.cards| == |s.cards|;
    assert Next(t) == ShowProject(t, Int(i));
    ShowProjectShows(t, i);
  }

  /** Showing card `k` shows exactly card `k` and dot `k`. */
  lemma ShowProjectShows(s: Carousel, k: nat)
    ensures Shows(ShowProject(s, Int(k)), k)
    ensures k < |s.cards| ==> ShowProject(s, Int(k)).cards[k].display == Block
    ensures k >= |s.cards| ==> forall i :: 0 <= i < |s.cards| ==> ShowProject(s, Int(k)).cards[i].display != Block
  {
  }

  /** `showProject` overwrites every card's display and every dot, so only the
      last selection matters: what was shown before leaves no trace. */
  lemma {:induction false} ShowProjectLastWins(s: Carousel, a: Num, b: Num)
    ensures ShowProject(ShowProject(s, a), b) == ShowProject(s, b)
  {
    var once := ShowProject(s, a);
    var x, y := ShowProject(once, b), ShowProject(s, b);
    assert forall i :: 0 <= i < |x.cards| ==> x.cards[i] == y.cards[i];
    assert x.cards == y.cards;
    assert x.dots == y.dots;
  }

  /** Clicking a preview: an open panel ('block') closes and loses `expanded`;
      any other panel opens and gains `expanded`. */
  function TogglePreview(c: Card): (r: Card)
    ensures r.display == c.display
    ensures (r.details == Block) == r.expanded
    ensures (r.details == Block) != (c.details == Block)
    ensures c.details == Block ==> r.details == Hidden
  {
    if c.details == Block then c.(details := Hidden, expanded := false)
    else c.(details := Block, expanded := true)
  }

  /** The expand button opens the panel. */
  function Expand(c: Card): (r: Card)
    ensures r.details == Block && r.expanded && r.display == c.display
  {
    c.(details := Block, expanded := true)
  }

  /** The collapse button closes the panel. */
  function Collapse(c: Card): (r: Card)
    ensures r.details == Hidden && !r.expanded && r.display == c.display
  {
    c.(details := Hidden, expanded := false)
  }

  /** Whether the panel is open is always what `expanded` says, once the first
      click has set the panel's display. */
  predicate InSync(c: Card) {
    (c.details == Block) == c.expanded
  }

  /** Two preview clicks restore a card whose panel display is already set.
      From the page's initial unset display they give 'none' instead, which
      looks the same: the panel and the flag are both closed again. */
  lemma {:induction false} ToggleTwice(c: Card)
    requires InSync(c)
    ensures c.details != Unset ==> TogglePreview(TogglePreview(c)) == c
    ensures (TogglePreview(TogglePreview(c)).details == Block) == (c.details == Block)
    ensures TogglePreview(TogglePreview(c)).expanded == c.expanded
  {
  }

  /** The events the carousel reacts to. */
  datatype Event = NextClick | PrevClick | Dot(i: nat) | PreviewClick(card: nat) | ExpandClick(card: nat) | CollapseClick(card: nat)

  function Apply(s: Carousel, e: Event): Carousel {
    match e
    case NextClick => Next(s)
    case PrevClick => Prev(s)
    case Dot(i) => if i < |s.dots| then DotClick(s, i) else s
    case PreviewClick(k) => if k < |s.cards| then s.(cards := s.cards[k := TogglePreview(s.cards[k])]) else s
    case ExpandClick(k) => if k < |s.cards| then s.(cards := s.cards[k := Expand(s.cards[k])]) else s
    case CollapseClick(k) => if k < |s.cards| then s.(cards := s.cards[k := Collapse(s.cards[k])]) else s
  }

  function Run(s: Carousel, events: seq<Event>): (r: Carousel)
    ensures |r.cards| == |s.cards| && |r.dots| == |s.dots|
    decreases |events|
  {
    if |events| == 0 then s else Run(Apply(s, events[0]), events[1..])
  }

  /** With at least one card and no more dots than cards, every click sequence
      keeps the index inside `[0, |cards|)`. */
  lemma {:induction false} IndexStaysInRange(s: Carousel, events: seq<Event>)
    requires |s.cards| > 0 && |s.dots| <= |s.cards|
    requires s.current.Int? && 0 <= s.current.v < |s.cards|
    ensures Run(s, events).current.Int?
    ensures 0 <= Run(s, events).current.v < |s.cards|
    decreases |events|
  {
    if |events| > 0 {
      var t := Apply(s, events[0]);
      assert t.current.Int? && 0 <= t.current.v < |t.cards|;
      IndexStaysInRange(t, events[1..]);
    }
  }

  /** With no cards, a button click turns the index into `NaN`, which every
      later button click keeps. */
  lemma NoCardsGivesNaN(s: Carousel)
    requires |s.cards| == 0
    ensures Next(s).current == NaN && Prev(s).current == NaN
  {
  }
}

=== FILE: css_reload.dfy ===
/**
  `reloadCSS`: every stylesheet link whose href contains the page's origin
  has its query string replaced by `?v=<timestamp>`; links to other origins
  are left as they are. The clock reading is a parameter.
 */
module CssReload {
  import opened Strings

  /** The new href for one stylesheet link. */
  function Rewrite(href: string, origin: string, timestamp: nat): (r: string)
    ensures !Includes(href, origin) ==> r == href
    ensures Includes(href, origin) ==> StartsWith(r, BeforeFirst(href, '?'))
  {
    if Includes(href, origin)
    then BeforeFirst(href, '?') + "?v=" + DecimalString(timestamp)
    else href
  }

  /** A rewritten href keeps the part before the query, has exactly one `?`,
      and its query is exactly `v=` followed by the timestamp's digits. */
  lemma {:induction false} RewriteShape(href: string, origin: string, timestamp: nat)
    requires Includes(href, origin)
    ensures BeforeFirst(Rewrite(href, origin, timestamp), '?') == BeforeFirst(href, '?')
    ensures CountChar(Rewrite(href, origin, timestamp), '?') == 1
    ensures var r := Rewrite(href, origin, timestamp);
      r[|BeforeFirst(href, '?')| + 1..] == "v=" + DecimalString(timestamp)
  {
    StampedShape(BeforeFirst(href, '?'), DecimalString(timestamp));
  }

  /** The shape of `path + "?v=" + stamp` for a query-free path and a stamp of digits. */
  lemma {:induction false} StampedShape(path: string, stamp: string)
    requires '?' !in path
    requires forall i :: 0 <= i < |stamp| ==> '0' <= stamp[i] <= '9'
    ensures BeforeFirst(path + "?v=" + stamp, '?') == path
    ensures CountChar(path + "?v=" + stamp, '?') == 1
    ensures (path + "?v=" + stamp)[|path| + 1..] == "v=" + stamp
  {
    var tail := "?v=" + stamp;
    assert path + "?v=" + stamp == path + tail;
    BeforeFirstAppend(path, '?', tail);
    CountCharAppend(path, tail, '?');
    CountCharAppend("?v=", stamp, '?');
    assert '?' !in stamp;
    assert CountChar("?v=", '?') == 1 by {
      assert "?v="[1..] == "v=";
      assert "v="[1..] == "=";
      assert "="[1..] == "";
    }
    assert (path + tail)[|path| + 1..] == tail[1..];
  }

  /** Rewriting twice with the same timestamp gives what rewriting once gives. */
  lemma {:induction false} RewriteIdempotent(href: string, origin: string, timestamp: nat)
    ensures Rewrite(Rewrite(href, origin, timestamp), origin, timestamp) == Rewrite(href, origin, timestamp)
  {
    if Includes(href, origin) {
      var once := Rewrite(href, origin, timestamp);
      if Includes(once, origin) {
        RewriteShape(href, origin, timestamp);
      }
    }
  }

  /** When the origin occurs before the query, a later reload replaces the
      stamp of an earlier one: only the newest timestamp is visible. */
  lemma {:induction false} RewriteRefreshes(href: string, origin: string, t1: nat, t2: nat)
    requires Includes(BeforeFirst(href, '?'), origin)
    ensures Rewrite(Rewrite(href, origin, t1), origin, t2) == Rewrite(href, origin, t2)
  {
    var path := BeforeFirst(href, '?');
    IncludesExtend(path, href[|path|..], origin);
    assert path + href[|path|..] == href;
    assert Includes(href, origin);
    var once := Rewrite(href, origin, t1);
    IncludesExtend(path, "?v=" + DecimalString(t1), origin);
    assert once == path + ("?v=" + DecimalString(t1));
    assert Includes(once, origin);
    RewriteShape(href, origin, t1);
    assert BeforeFirst(once, '?') == path;
  }

  /** `reloadCSS` over all stylesheet links, in document order. */
  function ReloadCss(hrefs: seq<string>, origin: string, timestamp: nat): (r: seq<string>)
    ensures |r| == |hrefs|
    ensures forall i :: 0 <= i < |hrefs| && !Includes(hrefs[i], origin) ==> r[i] == hrefs[i]
    ensures forall i :: 0 <= i < |hrefs| && Includes(hrefs[i], origin) ==>
      BeforeFirst(r[i], '?') == BeforeFirst(hrefs[i], '?') && CountChar(r[i], '?') == 1
    ensures forall i :: 0 <= i < |hrefs| && Includes(hrefs[i], origin) ==>
      |BeforeFirst(hrefs[i], '?')| < |r[i]| && r[i][|BeforeFirst(hrefs[i], '?')| + 1..] == "v=" + DecimalString(timestamp)
  {
    var r := seq(|hrefs|, i requires 0 <= i < |hrefs| => Rewrite(hrefs[i], origin, timestamp));
    forall i | 0 <= i < |hrefs| && Includes(hrefs[i], origin)
      ensures BeforeFirst(r[i], '?') == BeforeFirst(hrefs[i], '?') && CountChar(r[i], '?') == 1
      ensures |BeforeFirst(hrefs[i], '?')| < |r[i]| && r[i][|BeforeFirst(hrefs[i], '?')| + 1..] == "v=" + DecimalString(timestamp)
    {
      RewriteShape(hrefs[i], origin, timestamp);
    }
    r
  }
}

=== FILE: events_table.dfy ===
/**
  The events table's mobile labels: every body cell, taken in document order,
  gets a `data-label` naming the header of its column, found as
  `headerTexts[index % headerTexts.length]`.
 */
module EventsTable {
  import opened JsNumbers

  /** The label cell number `index` receives. With no header at all the
      remainder is `NaN`, the lookup gives `undefined`, and `setAttribute`
      stores the text "undefined". */
  function LabelFor(index: nat, headers: seq<string>): (text: string)
    ensures |headers| > 0 ==> text == headers[index % |headers|]
    ensures |headers| == 0 ==> text == "undefined"
  {
    Index(headers, Rem(Int(index), Int(|headers|)))
  }

  /** `tableCells.forEach((cell, index) => cell.setAttribute('data-label', ...))`. */
  method AssignLabels(cellCount: nat, headers: seq<string>) returns (labels: seq<string>)
    ensures |labels| == cellCount
    ensures forall j :: 0 <= j < cellCount ==> labels[j] == LabelFor(j, headers)
  {
    labels := [];
    var index := 0;
    while index < cellCount
      invariant 0 <= index <= cellCount
      invariant |labels| == index
      invariant forall j :: 0 <= j < index ==> labels[j] == LabelFor(j, headers)
    {
      labels := labels + [LabelFor(index, headers)];
      index := index + 1;
    }
  }

  /** In a table of full rows, the cell in row `row` and column `col` is
      labelled with the header of column `col`. */
  lemma RowColumnLabel(headers: seq<string>, row: nat, col: nat)
    requires col < |headers|
    ensures LabelFor(row * |headers| + col, headers) == headers[col]
  {
    var h := |headers|;
    ModOfRowColumn(row, col, h);
  }

  lemma ModOfRowColumn(row: nat, col: nat, h: nat)
    requires col < h
    ensures (row * h + col) % h == col
  {
    var x := row * h + col;
    var q := x / h;
    var r := x % h;
    assert (q - row) * h == col - r;
    if q - row >= 1 {
      MulLe(1, q - row, h);
      assert false;
    }
    if q - row <= -1 {
      MulLe(q - row, -1, h);
      assert false;
    }
  }

  lemma MulLe(a: int, b: int, h: nat)
    requires a <= b
    ensures a * h <= b * h
  {
  }

  /** Labels repeat with the header count as their period. */
  lemma {:induction false} LabelsPeriodic(labels: seq<string>, headers: seq<string>, j: nat)
    requires |headers| > 0
    requires forall k :: 0 <= k < |labels| ==> labels[k] == LabelFor(k, headers)
    requires j + |headers| < |labels|
    ensures labels[j + |headers|] == labels[j]
  {
    var h := |headers|;
    var col := j % h;
    var row := j / h;
    assert j == row * h + col;
    ModOfRowColumn(row, col, h);
    ModOfRowColumn(row + 1, col, h);
    assert j + h == (row + 1) * h + col;
  }
}

=== FILE: fetch_handler.dfy ===
/**
  The fetch handler. A request whose URL contains ".css" anywhere goes
  network-first; every other request goes cache-first. Each strategy is a
  function of the current cache and the outcome of the one network attempt it
  may make, returning what the handler responds with, the cache afterwards,
  and the requests it sent to the network.
 */
module FetchHandler {
  import opened Strings
  import opened Http
  import opened CacheStorage

  datatype Strategy = NetworkFirst | CacheFirst

  /** `event.request.url.includes('.css')` picks the branch. */
  function Route(req: Request): (s: Strategy)
    ensures s == NetworkFirst <==> exists i :: OccursAt(req.url, ".css", i)
  {
    if Includes(req.url, ".css") then NetworkFirst else CacheFirst
  }

  /** What `event.respondWith(...)` is given: a response, the `undefined` a
      failed `caches.match` resolves to, or a rejected promise. */
  datatype Reply = Respond(resp: Response) | RespondUndefined | NetworkError

  datatype Step = Step(reply: Reply, cache: Cache, fetched: seq<Request>)

  /** The cache-first branch stores only a complete same-origin response. */
  predicate Storable(resp: Response) {
    resp.status == 200 && resp.rtype == Basic
  }

  /** Network-first: always fetch. Online, return the response and put a clone
      in the cache whatever its status; offline, answer from the cache, which
      may hold nothing. */
  function NetworkFirstStep(c: Cache, req: Request, net: NetOutcome): (r: Step)
    ensures r.fetched == [req]
    ensures net.Success? ==> r.reply == Respond(net.resp)
    ensures net.Success? && req.verb == GET ==> r.cache == c[req.url := net.resp]
    ensures net.Failure? ==> r.cache == c
    ensures net.Failure? ==> (r.reply.Respond? <==> req.verb == GET && req.url in c)
    ensures net.Failure? && r.reply.Respond? ==> r.reply.resp == c[req.url]
    ensures net.Failure? && Match(c, req) == NotFound ==> r.reply == RespondUndefined
    ensures req.verb != GET ==> r.cache == c
  {
    match net
    case Success(resp) => Step(Respond(resp), Put(c, req, resp), [req])
    case Failure =>
      var reply := match Match(c, req)
        case Found(cached) => Respond(cached)
        case NotFound => RespondUndefined;
      Step(reply, c, [req])
  }

  /** Cache-first: a hit is returned without touching the network. On a miss,
      fetch; the response is returned unchanged and stored only when it is a
      200 `basic` response; a rejected fetch propagates. */
  function CacheFirstStep(c: Cache, req: Request, net: NetOutcome): (r: Step)
    ensures req.verb == GET && req.url in c ==> r == Step(Respond(c[req.url]), c, [])
    ensures Match(c, req) == NotFound ==> r.fetched == [req]
    ensures Match(c, req) == NotFound && net.Failure? ==> r.reply == NetworkError && r.cache == c
    ensures Match(c, req) == NotFound && net.Success? ==> r.reply == Respond(net.resp)
    ensures Match(c, req) == NotFound && net.Success? && req.verb == GET && Storable(net.resp) ==>
      r.cache == c[req.url := net.resp]
    ensures !(req.verb == GET && net.Success? && Storable(net.resp)) ==> r.cache == c
  {
    match Match(c, req)
    case Found(cached) => Step(Respond(cached), c, [])
    case NotFound =>
      match net
      case Failure => Step(NetworkError, c, [req])
      case Success(resp) =>
        Step(Respond(resp), if Storable(resp) then Put(c, req, resp) else c, [req])
  }

  /** The whole handler: route, then run the chosen strategy. Whatever it
      writes is the response it returns, under the request's own URL; every
      other entry is untouched and nothing is ever removed. */
  function HandleFetch(c: Cache, req: Request, net: NetOutcome): (r: Step)
    ensures c.Keys <= r.cache.Keys
    ensures forall u :: u in r.cache && u != req.url ==> u in c && r.cache[u] == c[u]
    ensures req.url in r.cache && (req.url !in c || r.cache[req.url] != c[req.url]) ==>
      r.reply == Respond(r.cache[req.url])
    ensures r.cache != c ==> req.verb == GET && net.Success?
    ensures |r.fetched| <= 1 && forall q :: q in r.fetched ==> q == req
  {
    match Route(req)
    case NetworkFirst => NetworkFirstStep(c, req, net)
    case CacheFirst => CacheFirstStep(c, req, net)
  }

  /** Once online, a stylesheet request is answered from the network: the
      cached copy is never served while the network succeeds. */
  lemma {:induction false} CssOnlineIsFresh(c: Cache, req: Request, resp: Response)
    requires Includes(req.url, ".css")
    ensures HandleFetch(c, req, Success(resp)).reply == Respond(resp)
    ensures req.verb == GET ==> HandleFetch(c, req, Success(resp)).cache[req.url] == resp
  {
  }

  /** A cached stylesheet is served only while the network fails; online,
      the network's response wins over the cached copy. */
  lemma {:induction false} CachedCssOnlyOffline(c: Cache, url: string, online: Response)
    requires Includes(url, ".css")
    requires url in c
    ensures HandleFetch(c, Request(GET, url), Failure).reply == Respond(c[url])
    ensures HandleFetch(c, Request(GET, url), Success(online)).reply == Respond(online)
  {
  }

  /** Network-first has no status check: a 404 or any other response is cached,
      replacing what was there. */
  lemma NetworkFirstStoresAnyStatus(c: Cache, url: string, resp: Response)
    ensures NetworkFirstStep(c, Request(GET, url), Success(resp)).cache[url] == resp
  {
  }

  /** Cache-first never stores a response whose status is not 200, nor one that
      is not `basic`. */
  lemma CacheFirstRejectsUnstorable(c: Cache, req: Request, resp: Response)
    requires !Storable(resp)
    ensures CacheFirstStep(c, req, Success(resp)).cache == c
  {
  }

  /** Offline after an online network-first call, the same request is answered
      with the response that call returned. */
  lemma {:induction false} NetworkFirstOfflineReplaysLast(c: Cache, req: Request, resp: Response)
    requires req.verb == GET
    ensures NetworkFirstStep(NetworkFirstStep(c, req, Success(resp)).cache, req, Failure).reply == Respond(resp)
  {
  }

  /** A cache-first miss whose response is stored turns the next identical
      request into a hit: the same response, no network attempt, whatever the
      network would have done. */
  lemma {:induction false} CacheFirstSecondCallHits(c: Cache, req: Request, resp: Response, later: NetOutcome)
    requires req.verb == GET && Storable(resp)
    ensures var first := CacheFirstStep(c, req, Success(resp));
      CacheFirstStep(first.cache, req, later) == Step(first.reply, first.cache, [])
  {
  }

  /** On a hit, cache-first does not depend on the network at all. */
  lemma CacheFirstHitIgnoresNetwork(c: Cache, req: Request, n1: NetOutcome, n2: NetOutcome)
    requires req.verb == GET && req.url in c
    ensures CacheFirstStep(c, req, n1) == CacheFirstStep(c, req, n2)
    ensures CacheFirstStep(c, req, n1).fetched == []
  {
  }

  /** ".css" anywhere in the URL routes network-first, not only as a suffix:
      a query string or a source map qualifies too. */
  lemma RouteExamples()
    ensures Route(Request(GET, "https://a.dev/styles.css?v=1")) == NetworkFirst
    ensures Route(Request(GET, "https://a.dev/app.css.map")) == NetworkFirst
  {
    assert OccursAt("https://a.dev/styles.css?v=1", ".css", 20);
    assert OccursAt("https://a.dev/app.css.map", ".css", 17);
  }
}

=== FILE: http.dfy ===
/**
  Requests, responses and the outcome of one network attempt, reduced to the
  fields the service worker inspects: the request's method and URL, the
  response's status and type (`basic`, `cors`, `opaque`, ...). The body is
  kept as opaque text so that "the same response" has a meaning.
 */
module Http {

  datatype Method = GET | HEAD | POST | PUT | DELETE | OPTIONS | PATCH

  datatype Request = Request(verb: Method, url: string)

  /** `Response.type` as the Fetch standard defines it. */
  datatype ResponseType = Basic | Cors | Opaque | OpaqueRedirect | Error

  datatype Response = Response(status: int, rtype: ResponseType, body: string) {
    /** `response.ok`: a status in the range 200 to 299. */
    predicate Ok() {
      200 <= status <= 299
    }
  }

  /** What a `fetch(...)` promise settles to: it resolves with a response,
      whatever its status, or it rejects (offline, DNS failure, CORS refusal). */
  datatype NetOutcome = Success(resp: Response) | Failure
}

=== FILE: install.dfy ===
/**
  The install handler. It opens the current cache and, for each versioned
  asset, fetches the asset with a `?v=<version>` query but stores the response
  under the asset's own URL, only when the response is ok. Each asset's fetch
  fails or succeeds on its own: a failure is logged and does not stop the
  others. The network is a function from URL to the outcome of fetching it.
 */
module Install {
  import opened Strings
  import opened Http
  import opened CacheStorage
  import opened WorkerConfig

  /** The absolute URL of a root-relative path such as "/index.html" within
      the worker's origin `scope`. */
  function Resolve(scope: string, path: string): (url: string)
    ensures StartsWith(url, scope)
    ensures url[|scope|..] == path
  {
    scope + path
  }

  lemma ResolveInjective(scope: string, p1: string, p2: string)
    ensures Resolve(scope, p1) == Resolve(scope, p2) <==> p1 == p2
  {
    if Resolve(scope, p1) == Resolve(scope, p2) {
      assert p1 == Resolve(scope, p1)[|scope|..];
    }
  }

  /** The URL asset `path` is fetched from during install. */
  function FetchUrl(scope: string, version: string, path: string): string {
    Resolve(scope, BustedUrl(path, version))
  }

  /** Whether the fetch for asset `path` resolves with an ok response. */
  predicate Fetched(net: string -> NetOutcome, scope: string, version: string, path: string) {
    var o := net(FetchUrl(scope, version, path));
    o.Success? && o.resp.Ok()
  }

  /** The cache keys the asset list can write. */
  function AssetKeys(scope: string, assets: seq<string>): set<string> {
    set p | p in assets :: Resolve(scope, p)
  }

  /** The per-asset step: on an ok response, `cache.put(url, response)`;
      on a non-ok response or a rejected fetch, nothing is stored. */
  function PutAsset(c: Cache, net: string -> NetOutcome, scope: string, version: string, path: string): Cache {
    if Fetched(net, scope, version, path)
    then c[Resolve(scope, path) := net(FetchUrl(scope, version, path)).resp]
    else c
  }

  /** All versioned assets, one after another. */
  function PutAssets(c: Cache, net: string -> NetOutcome, scope: string, version: string, assets: seq<string>): (r: Cache)
    ensures forall p :: p in assets && Fetched(net, scope, version, p) ==>
      Resolve(scope, p) in r && r[Resolve(scope, p)] == net(FetchUrl(scope, version, p)).resp
    ensures forall p :: p in assets && !Fetched(net, scope, version, p) ==> SameEntry(r, c, Resolve(scope, p))
    ensures forall k :: k !in AssetKeys(scope, assets) ==> SameEntry(r, c, k)
    decreases |assets|
  {
    if |assets| == 0 then c
    else
      var c' := PutAsset(c, net, scope, version, assets[0]);
      var r := PutAssets(c', net, scope, version, assets[1..]);
      assert forall p :: p in assets[1..] ==> p in assets;
      assert forall p :: p in assets && p != assets[0] ==> p in assets[1..];
      forall p | p in assets && p != assets[0]
        ensures Resolve(scope, p) != Resolve(scope, assets[0])
      {
        ResolveInjective(scope, p, assets[0]);
      }
      forall p | p == assets[0] && p !in assets[1..]
        ensures Resolve(scope, p) !in AssetKeys(scope, assets[1..])
      {
        forall q | q in assets[1..]
          ensures Resolve(scope, q) != Resolve(scope, p)
        {
          ResolveInjective(scope, q, p);
        }
      }
      forall k | k !in AssetKeys(scope, assets)
        ensures SameEntry(r, c, k)
      {
        assert k !in AssetKeys(scope, assets[1..]);
        assert k != Resolve(scope, assets[0]);
      }
      r
  }

  datatype InstallResult = InstallResult(storage: Storage, fetched: seq<string>)

  /** The cache-busted URL of each asset, in list order. */
  function FetchUrls(scope: string, version: string, assets: seq<string>): (urls: seq<string>)
    ensures |urls| == |assets|
    ensures forall i :: 0 <= i < |assets| ==> urls[i] == Resolve(scope, assets[i] + "?v=" + version)
    ensures forall i :: 0 <= i < |assets| && '?' !in scope && '?' !in assets[i] ==>
      BeforeFirst(urls[i], '?') == Resolve(scope, assets[i])
  {
    var urls := seq(|assets|, i requires 0 <= i < |assets| => FetchUrl(scope, version, assets[i]));
    forall i | 0 <= i < |assets| && '?' !in scope && '?' !in assets[i]
      ensures BeforeFirst(urls[i], '?') == Resolve(scope, assets[i])
    {
      FetchKeyIsBareUrl(scope, version, assets[i]);
    }
    urls
  }

  /** Cutting an install fetch URL at its `?` gives back the URL the response
      is stored under, when neither the origin nor the path has a query. */
  lemma FetchKeyIsBareUrl(scope: string, version: string, path: string)
    requires '?' !in scope && '?' !in path
    ensures BeforeFirst(FetchUrl(scope, version, path), '?') == Resolve(scope, path)
  {
    assert FetchUrl(scope, version, path) == (scope + path) + ("?v=" + version);
    BeforeFirstAppend(scope + path, '?', "?v=" + version);
  }

  /** Opens the cache for `version`, hands the `immutable` URLs to
      `cache.addAll` unchanged, and pre-caches `assets` with cache-busting.
      The `addAll` call is started first and is modelled as completed. */
  function InstallAssets(st: Storage, net: string -> NetOutcome, scope: string, version: string,
                         immutable: seq<string>, assets: seq<string>): (r: InstallResult)
    requires st.Valid()
    ensures r.storage.Valid()
    ensures CacheName(version) in r.storage.caches
    ensures forall n :: n in st.caches && n != CacheName(version) ==> n in r.storage.caches && r.storage.caches[n] == st.caches[n]
    ensures |r.fetched| == |immutable| + |assets|
    ensures r.fetched[..|immutable|] == immutable
    ensures forall i :: 0 <= i < |assets| ==> r.fetched[|immutable| + i] == Resolve(scope, assets[i] + "?v=" + version)
    ensures forall p :: p in assets && Fetched(net, scope, version, p) ==>
      var after := r.storage.caches[CacheName(version)];
      Resolve(scope, p) in after && after[Resolve(scope, p)] == net(FetchUrl(scope, version, p)).resp
    ensures AddAllSucceeds(net, immutable) ==>
      var after := r.storage.caches[CacheName(version)];
      forall u :: u in immutable && u !in AssetKeys(scope, assets) ==> u in after && after[u] == net(u).resp
    ensures forall k :: NoOkPut(net, scope, version, assets, k) && (k !in immutable || !AddAllSucceeds(net, immutable)) ==>
      SameEntry(r.storage.caches[CacheName(version)], CurrentCache(st, version), k)
  {
    var name := CacheName(version);
    var storage := Update(st, name, c => InstallCache(c, net, scope, version, immutable, assets));
    forall k | NoOkPut(net, scope, version, assets, k)
      ensures SameEntry(storage.caches[name], AddAll(CurrentCache(st, version), net, immutable), k)
    {
      if k in AssetKeys(scope, assets) {
        var p :| p in assets && Resolve(scope, p) == k;
      }
    }
    var fetched := immutable + FetchUrls(scope, version, assets);
    assert fetched[..|immutable|] == immutable;
    InstallResult(storage, fetched)
  }

  /** No asset whose fetch is ok is stored under key `k`. */
  predicate NoOkPut(net: string -> NetOutcome, scope: string, version: string, assets: seq<string>, k: string) {
    forall p :: p in assets && Resolve(scope, p) == k ==> !Fetched(net, scope, version, p)
  }

  /** What install does to the cache it opened: `addAll` on the third-party
      URLs, then the versioned puts. */
  function InstallCache(c: Cache, net: string -> NetOutcome, scope: string, version: string,
                        immutable: seq<string>, assets: seq<string>): Cache {
    PutAssets(AddAll(c, net, immutable), net, scope, version, assets)
  }

  /** The current cache after install: what it held before (or nothing). */
  function CurrentCache(st: Storage, version: string): Cache {
    if CacheName(version) in st.caches then st.caches[CacheName(version)] else map[]
  }

  /** Install stores each asset whose fetch is ok under the asset's own URL,
      never under the cache-busted URL it was fetched from, whatever happens
      to the other assets. An asset whose fetch fails or is not ok keeps
      whatever the cache held for it before. */
  lemma {:induction false} InstallStoresUnderBareUrl(st: Storage, net: string -> NetOutcome, scope: string, version: string,
                                                      immutable: seq<string>, assets: seq<string>, path: string)
    requires st.Valid()
    requires path in assets
    ensures var after := CurrentCache(InstallAssets(st, net, scope, version, immutable, assets).storage, version);
      && (Fetched(net, scope, version, path) ==>
            Resolve(scope, path) in after && after[Resolve(scope, path)] == net(FetchUrl(scope, version, path)).resp)
      && (!Fetched(net, scope, version, path) && Resolve(scope, path) !in immutable ==>
            SameEntry(after, CurrentCache(st, version), Resolve(scope, path)))
  {
    forall p | p in assets && Resolve(scope, p) == Resolve(scope, path)
      ensures p == path
    {
      ResolveInjective(scope, p, path);
    }
  }

  /** A successful `addAll` survives the versioned puts when no third-party
      URL is the key of a versioned asset. */
  lemma {:induction false} InstallStoresThirdParty(st: Storage, net: string -> NetOutcome, scope: string, version: string,
                                                    immutable: seq<string>, assets: seq<string>)
    requires st.Valid()
    requires AddAllSucceeds(net, immutable)
    requires forall u :: u in immutable ==> u !in AssetKeys(scope, assets)
    ensures var after := InstallAssets(st, net, scope, version, immutable, assets).storage.caches[CacheName(version)];
      forall u :: u in immutable ==> u in after && after[u] == net(u).resp
  {
  }

  /** Running install twice against the same network leaves the same cache as
      running it once: `addAll` and the versioned puts write the same
      responses under the same keys again. */
  lemma {:induction false} InstallCacheIdempotent(c: Cache, net: string -> NetOutcome, scope: string, version: string,
                                                   immutable: seq<string>, assets: seq<string>)
    ensures var once := InstallCache(c, net, scope, version, immutable, assets);
      InstallCache(once, net, scope, version, immutable, assets) == once
  {
    var first := AddAll(c, net, immutable);
    var once := PutAssets(first, net, scope, version, assets);
    var second := AddAll(once, net, immutable);
    var twice := PutAssets(second, net, scope, version, assets);
    forall k: string
      ensures (k in twice <==> k in once) && (k in twice ==> twice[k] == once[k])
    {
      if k in AssetKeys(scope, assets) {
        var p :| p in assets && Resolve(scope, p) == k;
        if !Fetched(net, scope, version, p) {
          if k in immutable && AddAllSucceeds(net, immutable) {
          } else {
          }
        }
      } else {
        if k in immutable && AddAllSucceeds(net, immutable) {
        } else {
        }
      }
    }
    assert twice.Keys == once.Keys;
  }

  /** Repeating the versioned puts against the same network changes nothing:
      the second pass writes the same responses under the same keys. */
  lemma {:induction false} PutAssetsIdempotent(c: Cache, net: string -> NetOutcome, scope: string, version: string, assets: seq<string>)
    ensures PutAssets(PutAssets(c, net, scope, version, assets), net, scope, version, assets)
         == PutAssets(c, net, scope, version, assets)
  {
    var once := PutAssets(c, net, scope, version, assets);
    var twice := PutAssets(once, net, scope, version, assets);
    forall k | k in AssetKeys(scope, assets)
      ensures (k in twice <==> k in once) && (k in once ==> twice[k] == once[k])
    {
      var p :| p in assets && Resolve(scope, p) == k;
    }
    assert twice.Keys == once.Keys;
  }

  /** The worker's install: the current version and both asset lists. */
  function InstallWorker(st: Storage, net: string -> NetOutcome, scope: string): (r: InstallResult)
    requires st.Valid()
    ensures r.storage.Valid()
    ensures CacheName(CacheVersion) in r.storage.caches
  {
    InstallAssets(st, net, scope, CacheVersion, ImmutableAssets, VersionedAssets)
  }

  /** The shipped worker's install requests: the three third-party URLs as
      they are, then the four versioned paths with `?v=1.0.0`. */
  lemma WorkerInstallFetches(st: Storage, net: string -> NetOutcome, scope: string)
    requires st.Valid()
    ensures InstallWorker(st, net, scope).fetched == ImmutableAssets +
      [Resolve(scope, "/?v=1.0.0"), Resolve(scope, "/index.html?v=1.0.0"),
       Resolve(scope, "/styles.css?v=1.0.0"), Resolve(scope, "/script.js?v=1.0.0")]
  {
    WorkerFetchUrls(scope);
  }

  /** No third-party URL is the key of a versioned asset, whatever the origin:
      each ends differently from every versioned path. */
  lemma {:induction false} ImmutableNotVersioned(scope: string)
    ensures forall u :: u in ImmutableAssets ==> u !in AssetKeys(scope, VersionedAssets)
  {
    forall u, p | u in ImmutableAssets && p in VersionedAssets
      ensures Resolve(scope, p) != u
    {
      if Resolve(scope, p) == u {
        assert false;
      }
    }
  }

  /** The four cache-busted URLs of the shipped asset list. */
  lemma WorkerFetchUrls(scope: string)
    ensures FetchUrls(scope, CacheVersion, VersionedAssets) ==
      [Resolve(scope, "/?v=1.0.0"), Resolve(scope, "/index.html?v=1.0.0"),
       Resolve(scope, "/styles.css?v=1.0.0"), Resolve(scope, "/script.js?v=1.0.0")]
  {
    var urls := FetchUrls(scope, CacheVersion, VersionedAssets);
    VersionedFetchUrls();
    assert urls[0] == Resolve(scope, "/?v=1.0.0");
    assert urls[1] == Resolve(scope, "/index.html?v=1.0.0");
    assert urls[2] == Resolve(scope, "/styles.css?v=1.0.0");
    assert urls[3] == Resolve(scope, "/script.js?v=1.0.0");
  }

  /** Whether `cache.addAll(urls)` resolves: no URL repeats and every fetch
      resolves with an ok response. */
  predicate AddAllSucceeds(net: string -> NetOutcome, urls: seq<string>) {
    Distinct(urls) && forall u :: u in urls ==> net(u).Success? && net(u).resp.Ok()
  }

  /** `cache.addAll(urls)`: all responses are stored when the call succeeds;
      otherwise it rejects and nothing is stored. */
  function AddAll(c: Cache, net: string -> NetOutcome, urls: seq<string>): (r: Cache)
    ensures AddAllSucceeds(net, urls) ==> forall u :: u in urls ==> u in r && r[u] == net(u).resp
    ensures !AddAllSucceeds(net, urls) ==> r == c
    ensures forall k :: k !in urls ==> SameEntry(r, c, k)
  {
    if AddAllSucceeds(net, urls)
    then c + map u | u in urls :: net(u).resp
    else c
  }
}

=== FILE: js_numbers.dfy ===
/**
  The slice of JavaScript number semantics the UI script's index arithmetic
  touches: integers, `NaN`, `+`, `-` and the remainder operator `%`, which
  truncates toward zero (the result takes the dividend's sign) and yields
  `NaN` for a zero divisor.
 */
module JsNumbers {

  datatype Num = Int(v: int) | NaN

  function Add(a: Num, b: Num): (r: Num)
    ensures r.NaN? <==> a.NaN? || b.NaN?
  {
    if a.Int? && b.Int? then Int(a.v + b.v) else NaN
  }

  function Sub(a: Num, b: Num): (r: Num)
    ensures r.NaN? <==> a.NaN? || b.NaN?
  {
    if a.Int? && b.Int? then Int(a.v - b.v) else NaN
  }

  function Abs(x: int): nat {
    if x < 0 then -x else x
  }

  /** Remainder of a division truncated toward zero, as JavaScript's `%` on integers. */
  function TruncRem(a: int, b: int): (r: int)
    requires b != 0
    ensures Abs(r) < Abs(b)
    ensures a >= 0 ==> r >= 0
    ensures a <= 0 ==> r <= 0
  {
    if a >= 0 then a % Abs(b) else -((-a) % Abs(b))
  }

  /** `a % b` differs from `a` by a multiple of `b`: together with the bound
      and the sign above, this pins the truncated remainder down. */
  lemma {:induction false} TruncRemCongruent(a: int, b: int)
    requires b != 0
    ensures (a - TruncRem(a, b)) % Abs(b) == 0
  {
    var m := Abs(b);
    if a >= 0 {
      var q := a / m;
      assert a - TruncRem(a, b) == q * m;
      MultipleMod(q, m);
    } else {
      var q := (-a) / m;
      assert a - TruncRem(a, b) == (-q) * m;
      MultipleMod(-q, m);
    }
  }

  /** A multiple of `m` leaves no remainder: the Euclidean quotient of
      `q * m` can only be `q`. */
  lemma {:induction false} MultipleMod(q: int, m: int)
    requires m > 0
    ensures (q * m) % m == 0
  {
    var x := q * m;
    var d, r := x / m, x % m;
    var k := q - d;
    assert k * m == r by {
      assert x == d * m + r;
      assert k * m == q * m - d * m;
    }
    if k >= 1 {
      assert false;
    } else if k <= -1 {
      assert false;
    }
  }

  /** JavaScript `a % b` */
  function Rem(a: Num, b: Num): (r: Num)
    ensures r.NaN? <==> a.NaN? || b.NaN? || b.v == 0
    ensures r.Int? && a.v >= 0 ==> 0 <= r.v < Abs(b.v)
    ensures r.Int? && a.v >= 0 && b.v > 0 ==> r.v == a.v % b.v
    ensures r.Int? && a.v < 0 ==> r.v == -((-a.v) % Abs(b.v))
  {
    if a.NaN? || b.NaN? || b.v == 0 then NaN else Int(TruncRem(a.v, b.v))
  }

  /** On a non-negative dividend and a positive divisor, JavaScript's `%` agrees with Dafny's. */
  lemma RemNonNegative(a: int, b: int)
    requires a >= 0 && b > 0
    ensures Rem(Int(a), Int(b)) == Int(a % b)
  {
  }

  /** On a negative dividend and a positive divisor, JavaScript's `%` is the
      negated remainder of the magnitudes; it differs from Dafny's whenever
      the divisor does not divide the dividend. */
  lemma RemNegative(a: int, b: int)
    requires a < 0 && b > 0
    ensures Rem(Int(a), Int(b)) == Int(-((-a) % b))
    ensures a % b != 0 ==> Rem(Int(a), Int(b)) != Int(a % b)
  {
  }

  /** For example, JavaScript gives `-1 % 3 == -1`, not `2`. */
  lemma RemNegativeDividend()
    ensures Rem(Int(-1), Int(3)) == Int(-1)
    ensures -1 % 3 == 2
  {
  }

  /** `arr[i]` read from an array of strings: out of range or `NaN` gives `undefined`,
      which `setAttribute` renders as the text "undefined". */
  function Index(arr: seq<string>, i: Num): (r: string)
    ensures i.Int? && 0 <= i.v < |arr| ==> r == arr[i.v]
    ensures i.NaN? ==> r == "undefined"
  {
    if i.Int? && 0 <= i.v < |arr| then arr[i.v] else "undefined"
  }

  lemma ModBelow(x: int, n: int)
    requires 0 <= x < n
    ensures x % n == x
  {
  }

  lemma ModOnce(x: int, n: int)
    requires n <= x < 2 * n
    ensures x % n == x - n
  {
    ModBelow(x - n, n);
    assert x == 1 * n + (x - n);
  }
}

=== FILE: mobile_menu.dfy ===
/**
  The mobile menu. Three pieces of page state: the `active` class on the nav
  links, the `active` class on the menu button, and the body's `overflow`
  style. The button toggles both classes and locks scrolling while the nav is
  open; a click outside both elements closes an open menu; following an
  in-page link closes an open menu too, but only when the link's target
  element exists.
 */
module MobileMenu {

  /** `document.body.style.overflow`: 'hidden' or the empty default. */
  datatype Overflow = Scroll | Locked

  datatype Menu = Menu(navActive: bool, buttonActive: bool, overflow: Overflow)

  const Closed: Menu := Menu(false, false, Scroll)

  /** Where a click landed: inside the nav links, inside the menu button, or elsewhere. */
  datatype Target = InNav | InButton | Outside

  /** The menu button's own click listener: toggle both classes, then set
      `overflow` from the nav's new state. */
  function Toggle(m: Menu): (r: Menu)
    ensures r.navActive == !m.navActive && r.buttonActive == !m.buttonActive
    ensures r.overflow == Locked <==> r.navActive
  {
    var nav := !m.navActive;
    Menu(nav, !m.buttonActive, if nav then Locked else Scroll)
  }

  /** The document's click listener: an open menu closes when the click
      landed outside both the nav links and the button. */
  function DocumentClick(m: Menu, target: Target): (r: Menu)
    ensures m.navActive && target == Outside ==> r == Closed
    ensures !(m.navActive && target == Outside) ==> r == m
  {
    if m.navActive && target == Outside then Menu(false, false, Scroll) else m
  }

  /** The click listener of an `a[href^="#"]` anchor. When
      `document.querySelector(href)` finds the target, the page scrolls to it
      and an open menu is closed. When it finds nothing (a missing id), or
      throws (a bare `#`), the listener does nothing more. */
  function LinkFollowed(m: Menu, targetFound: bool): (r: Menu)
    ensures targetFound && m.navActive ==> r == Closed
    ensures !(targetFound && m.navActive) ==> r == m
  {
    if targetFound && m.navActive then Menu(false, false, Scroll) else m
  }

  /** A user action and the listeners it reaches, in bubbling order. */
  datatype Action = ClickButton | ClickNav | ClickOutside | FollowLink(targetFound: bool)

  function Step(m: Menu, a: Action): (r: Menu)
    ensures a == ClickButton ==> r == Toggle(m)
    ensures a == ClickNav ==> r == m
    ensures a == ClickOutside ==> !r.navActive && (m.navActive ==> r == Closed) && (!m.navActive ==> r == m)
    ensures a.FollowLink? ==> r == LinkFollowed(m, a.targetFound)
  {
    match a
    // The button listener runs first; the click then bubbles to the document,
    // whose listener sees a target inside the button and does nothing.
    case ClickButton => DocumentClick(Toggle(m), InButton)
    case ClickNav => DocumentClick(m, InNav)
    case ClickOutside => DocumentClick(m, Outside)
    // The anchor sits inside the nav links, so the document listener ignores it.
    case FollowLink(found) => DocumentClick(LinkFollowed(m, found), InNav)
  }

  function Run(m: Menu, actions: seq<Action>): Menu
    decreases |actions|
  {
    if |actions| == 0 then m else Run(Step(m, actions[0]), actions[1..])
  }

  /** The nav and the button agree, and scrolling is locked exactly while the nav is open. */
  predicate Consistent(m: Menu) {
    m.navActive == m.buttonActive && (m.overflow == Locked <==> m.navActive)
  }

  /** Every action keeps a consistent menu consistent. */
  lemma StepConsistent(m: Menu, a: Action)
    requires Consistent(m)
    ensures Consistent(Step(m, a))
  {
  }

  /** From the page's initial state, no sequence of actions ever lets the nav
      and the button disagree or the scroll lock outlive the open menu. */
  lemma {:induction false} RunConsistent(m: Menu, actions: seq<Action>)
    requires Consistent(m)
    ensures Consistent(Run(m, actions))
    decreases |actions|
  {
    if |actions| > 0 {
      StepConsistent(m, actions[0]);
      RunConsistent(Step(m, actions[0]), actions[1..]);
    }
  }

  /** A link whose target is missing leaves an open menu open: the menu
      closes on a link click exactly when the target exists. */
  lemma LinkClosesOnlyWithTarget(m: Menu, found: bool)
    requires Consistent(m) && m.navActive
    ensures Step(m, FollowLink(found)).navActive <==> !found
  {
  }

  /** Two button clicks restore the menu. */
  lemma ToggleTwice(m: Menu)
    requires Consistent(m)
    ensures Step(Step(m, ClickButton), ClickButton) == m
  {
  }

  /** Because both classes are toggled independently, a menu whose classes
      already disagree keeps disagreeing after a button click. */
  lemma ToggleKeepsDisagreement(m: Menu)
    requires m.navActive != m.buttonActive
    ensures Toggle(m).navActive != Toggle(m).buttonActive
  {
  }
}

=== FILE: strings.dfy ===
/**
  The JavaScript string operations the worker and the UI script rely on:
  `startsWith`, `includes`, `split(c)[0]` and the decimal rendering of a
  non-negative number inside a template literal.
 */
module Strings {

  /** `s.startsWith(prefix)` */
  predicate StartsWith(s: string, prefix: string) {
    |prefix| <= |s| && s[..|prefix|] == prefix
  }

  /** `sub` occurs in `s` beginning at position `i` */
  predicate OccursAt(s: string, sub: string, i: int) {
    0 <= i && i + |sub| <= |s| && s[i..i + |sub|] == sub
  }

  /** `s.includes(sub)`: true when `sub` occurs anywhere in `s` */
  function Includes(s: string, sub: string): (r: bool)
    ensures r <==> exists i :: OccursAt(s, sub, i)
    decreases |s|
  {
    if |sub| > |s| then
      assert forall i :: !OccursAt(s, sub, i);
      false
    else if s[..|sub|] == sub then
      assert OccursAt(s, sub, 0);
      true
    else
      var rest := Includes(s[1..], sub);
      OccursInTail(s, sub);
      rest
  }

  /** An occurrence not at the front of `s` is an occurrence in `s[1..]`, one position earlier. */
  lemma OccursInTail(s: string, sub: string)
    requires |s| > 0
    requires !OccursAt(s, sub, 0)
    ensures (exists i :: OccursAt(s, sub, i)) <==> (exists i :: OccursAt(s[1..], sub, i))
  {
    if exists i :: OccursAt(s, sub, i) {
      var i :| OccursAt(s, sub, i);
      assert i != 0;
      assert s[1..][i - 1..i - 1 + |sub|] == s[i..i + |sub|];
      assert OccursAt(s[1..], sub, i - 1);
    }
    if exists i :: OccursAt(s[1..], sub, i) {
      var i :| OccursAt(s[1..], sub, i);
      assert s[i + 1..i + 1 + |sub|] == s[1..][i..i + |sub|];
      assert OccursAt(s, sub, i + 1);
    }
  }

  /** Every occurrence inside a prefix of `a` is an occurrence in `a + b`. */
  lemma IncludesExtend(a: string, b: string, sub: string)
    requires Includes(a, sub)
    ensures Includes(a + b, sub)
  {
    var i :| OccursAt(a, sub, i);
    assert (a + b)[i..i + |sub|] == a[i..i + |sub|];
    assert OccursAt(a + b, sub, i);
  }

  /** Index of the first `c` in `s`, or `|s|` when there is none. */
  function IndexOf(s: string, c: char): (k: nat)
    ensures k <= |s|
    ensures k < |s| ==> s[k] == c
    ensures forall j :: 0 <= j < k ==> s[j] != c
  {
    if |s| == 0 then 0
    else if s[0] == c then 0
    else 1 + IndexOf(s[1..], c)
  }

  /** `s.split(c)[0]`: the text before the first `c`, or all of `s` when `c` does not occur. */
  function BeforeFirst(s: string, c: char): (r: string)
    ensures c !in r
    ensures StartsWith(s, r)
    ensures |r| == |s| <==> c !in s
    ensures |r| < |s| ==> s[|r|] == c
  {
    s[..IndexOf(s, c)]
  }

  /** Cutting `a + b`, where `b` starts with `c` and `a` holds no `c`, gives back `a`. */
  lemma BeforeFirstAppend(a: string, c: char, b: string)
    requires c !in a
    requires |b| > 0 && b[0] == c
    ensures BeforeFirst(a + b, c) == a
  {
    assert forall j :: 0 <= j < |a| ==> (a + b)[j] == a[j];
    assert (a + b)[|a|] == c;
  }

  /** One decimal digit as a character. */
  function DigitChar(d: nat): (ch: char)
    requires d < 10
    ensures '0' <= ch <= '9'
  {
    "0123456789"[d]
  }

  /** `${n}` for a non-negative integer `n`: its decimal digits, most significant first. */
  function DecimalString(n: nat): (r: string)
    ensures |r| > 0
    ensures forall i :: 0 <= i < |r| ==> '0' <= r[i] <= '9'
  {
    if n < 10 then [DigitChar(n)]
    else DecimalString(n / 10) + [DigitChar(n % 10)]
  }

  /** Number of occurrences of `c` in `s`. */
  function CountChar(s: string, c: char): (k: nat)
    ensures k <= |s|
    ensures k == 0 <==> c !in s
  {
    if |s| == 0 then 0
    else (if s[0] == c then 1 else 0) + CountChar(s[1..], c)
  }

  lemma {:induction false} CountCharAppend(a: string, b: string, c: char)
    ensures CountChar(a + b, c) == CountChar(a, c) + CountChar(b, c)
  {
    if |a| == 0 {
      assert a + b == b;
    } else {
      assert (a + b)[1..] == a[1..] + b;
      CountCharAppend(a[1..], b, c);
    }
  }
}

=== FILE: worker.dfy ===
/**
  The worker's lifecycle end to end: install pre-caches the versioned assets,
  activate sweeps out older caches, and fetches are then answered from the
  current cache.
 */
module Worker {
  import opened Strings
  import opened Http
  import opened CacheStorage
  import opened WorkerConfig
  import opened Install
  import opened Activate
  import opened FetchHandler

  /** The current cache after install and activate. */
  function ActiveCache(st: Storage, net: string -> NetOutcome, scope: string): (c: Cache)
    requires st.Valid()
    ensures forall p :: p in VersionedAssets && Fetched(net, scope, CacheVersion, p) ==>
      Resolve(scope, p) in c && c[Resolve(scope, p)] == net(FetchUrl(scope, CacheVersion, p)).resp
  {
    var installed := InstallWorker(st, net, scope).storage;
    var active := ActivateWorker(installed).storage;
    active.caches[CacheName(CacheVersion)]
  }

  /** When `cache.addAll` of the third-party assets succeeds, each of them is
      in the active cache with the response it was fetched with: no versioned
      put can overwrite one. */
  lemma {:induction false} ThirdPartyPrecached(st: Storage, net: string -> NetOutcome, scope: string)
    requires st.Valid()
    requires AddAllSucceeds(net, ImmutableAssets)
    ensures var c := ActiveCache(st, net, scope);
      forall u :: u in ImmutableAssets ==> u in c && c[u] == net(u).resp
  {
    var installed := InstallWorker(st, net, scope).storage;
    ThirdPartyInstalled(st, net, scope);
    SweepKeepsCurrentAndForeign(installed, CacheVersion, CacheName(CacheVersion));
  }

  /** The install half: after install the current cache holds every
      third-party response. */
  lemma {:induction false} ThirdPartyInstalled(st: Storage, net: string -> NetOutcome, scope: string)
    requires st.Valid()
    requires AddAllSucceeds(net, ImmutableAssets)
    ensures var after := InstallWorker(st, net, scope).storage.caches[CacheName(CacheVersion)];
      forall u :: u in ImmutableAssets ==> u in after && after[u] == net(u).resp
  {
    ImmutableNotVersioned(scope);
    InstallStoresThirdParty(st, net, scope, CacheVersion, ImmutableAssets, VersionedAssets);
  }

  /** A page asset pre-cached at install is served from the cache, with no
      network attempt, whether or not the network is up. */
  lemma {:induction false} PrecachedPageNeedsNoNetwork(st: Storage, net: string -> NetOutcome, scope: string, path: string, later: NetOutcome)
    requires st.Valid()
    requires path in VersionedAssets
    requires Fetched(net, scope, CacheVersion, path)
    requires !Includes(Resolve(scope, path), ".css")
    ensures var c := ActiveCache(st, net, scope);
      HandleFetch(c, Request(GET, Resolve(scope, path)), later)
        == Step(Respond(net(FetchUrl(scope, CacheVersion, path)).resp), c, [])
  {
  }

  /** The pre-cached stylesheet goes network-first like every URL containing
      ".css": it is served only when the network fails. */
  lemma {:induction false} PrecachedStylesheetOnlyOffline(st: Storage, net: string -> NetOutcome, scope: string, online: Response)
    requires st.Valid()
    requires Fetched(net, scope, CacheVersion, "/styles.css")
    ensures var c := ActiveCache(st, net, scope);
      var req := Request(GET, Resolve(scope, "/styles.css"));
      && HandleFetch(c, req, Failure).reply == Respond(net(FetchUrl(scope, CacheVersion, "/styles.css")).resp)
      && HandleFetch(c, req, Success(online)).reply == Respond(online)
  {
    StylesheetPrecached(st, net, scope);
    StylesheetUrlIsCss(scope);
    CachedCssOnlyOffline(ActiveCache(st, net, scope), Resolve(scope, "/styles.css"), online);
  }

  /** An ok install fetch of `/styles.css` leaves its response in the active cache. */
  lemma {:induction false} StylesheetPrecached(st: Storage, net: string -> NetOutcome, scope: string)
    requires st.Valid()
    requires Fetched(net, scope, CacheVersion, "/styles.css")
    ensures var c := ActiveCache(st, net, scope);
      Resolve(scope, "/styles.css") in c && c[Resolve(scope, "/styles.css")] == net(FetchUrl(scope, CacheVersion, "/styles.css")).resp
  {
    assert "/styles.css" in VersionedAssets;
  }

  /** The stylesheet's URL contains ".css" whatever the origin. */
  lemma {:induction false} StylesheetUrlIsCss(scope: string)
    ensures Includes(Resolve(scope, "/styles.css"), ".css")
  {
    var url := Resolve(scope, "/styles.css");
    assert url[|scope| + 7..|scope| + 11] == ".css";
    assert OccursAt(url, ".css", |scope| + 7);
  }
}

=== FILE: worker_config.dfy ===
/**
  The service worker's module-level constants: its version, the cache name
  derived from it, and the two asset lists pre-cached at install time.
 */
module WorkerConfig {
  import opened Strings

  const CacheVersion: string := "1.0.0"

  /** Every cache this worker has ever created starts with this prefix. */
  const CacheNamePrefix: string := "portfolio-cache-"

  /** Third-party assets added without cache-busting. */
  const ImmutableAssets: seq<string> := [
    "https://cdnjs.cloudflare.com/ajax/libs/font-awesome/6.4.0/css/all.min.css",
    "https://cdnjs.cloudflare.com/ajax/libs/font-awesome/6.4.0/webfonts/fa-solid-900.woff2",
    "https://images.unsplash.com/photo-1517694712202-14dd9538aa97"
  ]

  /** Same-origin paths fetched with a version query at install. */
  const VersionedAssets: seq<string> := ["/", "/index.html", "/styles.css", "/script.js"]

  /** The name of the cache a worker of version `version` reads and writes. */
  function CacheName(version: string): (name: string)
    ensures StartsWith(name, CacheNamePrefix)
    ensures name[|CacheNamePrefix|..] == version
  {
    CacheNamePrefix + version
  }

  /** The cache name is a one-to-one function of the version: a new version,
      and only a new version, yields a new cache. */
  lemma CacheNameInjective(v1: string, v2: string)
    ensures CacheName(v1) == CacheName(v2) <==> v1 == v2
  {
    if CacheName(v1) == CacheName(v2) {
      assert v1 == CacheName(v1)[|CacheNamePrefix|..];
    }
  }

  /** The name the shipped worker uses. */
  lemma CurrentCacheName()
    ensures CacheName(CacheVersion) == "portfolio-cache-1.0.0"
  {
  }

  /** `${url}?v=${CACHE_VERSION}`: the URL an install-time asset is fetched from. */
  function BustedUrl(url: string, version: string): (r: string)
    ensures StartsWith(r, url)
    ensures r[|url|..] == "?v=" + version
  {
    url + "?v=" + version
  }

  /** The cache-busted URL never equals the URL it was built from, so the stored
      key and the fetched URL are always distinct. */
  lemma BustedUrlDiffers(url: string, version: string)
    ensures BustedUrl(url, version) != url
  {
    assert |BustedUrl(url, version)| > |url|;
  }

  /** The URLs the shipped worker fetches at install, relative to its origin. */
  lemma VersionedFetchUrls()
    ensures |VersionedAssets| == 4
    ensures BustedUrl(VersionedAssets[0], CacheVersion) == "/?v=1.0.0"
    ensures BustedUrl(VersionedAssets[1], CacheVersion) == "/index.html?v=1.0.0"
    ensures BustedUrl(VersionedAssets[2], CacheVersion) == "/styles.css?v=1.0.0"
    ensures BustedUrl(VersionedAssets[3], CacheVersion) == "/script.js?v=1.0.0"
  {
  }
}
